=== FILE: README.md ===
# Rock FM control panel — a Dafny model

The radio appliance plays one internet stream. It has a small accessory board with
three buttons, each next to its own LED, a four-character alphanumeric display, and
a seven-pixel RGB strip. Button C raises the music-stream volume and button B lowers
it. Button A toggles the audio mixer's mute. The display shows the station name
("ROCK FM"), "MUTE" or "WAIT". Text wider than four characters scrolls through the
display from a background task. The strip is a rainbow bar whose height follows the
volume.

The model has four modules, one per piece of the activity's logic:

- `LedStrip` covers the strip renderer (`updateLedStrip`). It has the lit-pixel count,
  the reference frame `StripFrame`, and the rendering loop `RenderStrip` proved equal
  to it.
- `Scroller` covers the scroll task (`Scroller.doInBackground`). `ScrollFrames` is one
  cycle of the infinite loop. `NthWrite` is the n-th write of a task that has not been
  cancelled.
- `Display` covers the display-update policy (`updateDisplay`). The display is optional
  (`Absent` after a failed open). Every scroll task started on it is kept with a
  cancelled flag, so "at most one scroller runs" is a statement about the model.
- `RadioPanel` covers the key handlers (`onKeyDown`, `onKeyUp`, `handleMuteStates`) as
  pure steps over an immutable `Panel`. A `Panel` holds the mixer's volume and
  maximum, the three LED states, the display and the optional strip. Each press also
  returns the calls the handler made, in order (`Effect`): mixer and LED calls, and
  calls of the `updateDisplay` and `updateLedStrip` helpers (`ShowText`, `WriteStrip`),
  which write nothing when their peripheral is absent. The module also covers
  startup, where the display and strip are optional and the buttons and LEDs are
  mandatory, and the two display calls of the stream-preparation task.

The key invariant is `RadioPanel.Valid`. It says the volume lies in `[0, max]` with
`max > 0`, the strip (when present) shows exactly the frame for the current volume,
and only the newest scroll task can still be running. Every event keeps it.
`KeysKeepDisplayTracking` proves that the sparse refresh policy is enough to keep
agreement once it holds. The display is refreshed only when the volume enters 1 going
up or 0 going down, and on every mute toggle. Even so, a display that agrees with the
volume keeps agreeing under any sequence of key events.

Two events break that agreement, and key events do not restore it until the volume
crosses 0/1 or mute is toggled:

- After startup the display shows "WAIT" whatever the volume (`StartupShowsWait`).
- When stream preparation ends, the station name is shown even while the volume reads
  0 (`StationNameWhileSilent`).

Behaviour of the code worth knowing:

- A volume key that is clamped (C at the maximum, B at 0) lights no LED. The LED is set
  only inside the branch that changes the volume.
- The display is not refreshed after every command. It is refreshed only on the
  transitions into volume 1 (up) and 0 (down), and on every mute toggle.
- There is no local mute flag. After a toggle the mixer's volume is read back, and that
  value is what gets displayed and rendered.
- When stream preparation finishes, the station name is shown whether preparation
  succeeded or failed.
- The scroll task writes suffixes of `"   " + text + " "`, not four-character windows.
  The last two writes of a cycle are three and two characters long.

## Model

| member | source | states |
|---|---|---|
| LedStrip.LitCount | app/src/main/java/com/blindknot/rockfm/RadioPlayerActivity.kt:344 | the number of lit pixels is the floor of value/max·7: n·max ≤ 7·value < (n+1)·max; it is at most 7, 0 exactly when 7·value < max, 7 exactly at value == max |
| LedStrip.RenderStrip | app/src/main/java/com/blindknot/rockfm/RadioPlayerActivity.kt:342-352 | the rendering loop yields 7 entries; entry i is lit iff 7 − lit ≤ i, a lit entry's hue is its own index, and the result equals the reference frame StripFrame |
| LedStrip.StripLitCount | app/src/main/java/com/blindknot/rockfm/RadioPlayerActivity.kt:344-349 | exactly LitCount(value, max) of the seven pixels are not off |
| LedStrip.StripEnds | app/src/main/java/com/blindknot/rockfm/RadioPlayerActivity.kt:344-349 | value 0 renders an all-off frame; value == max lights all seven pixels, each with its own hue |
| LedStrip.StripRises | app/src/main/java/com/blindknot/rockfm/RadioPlayerActivity.kt:344-349 | the bar rises with the volume: a higher value lights at least as many pixels, and every pixel lit at a lower value stays lit with the same colour |
| Scroller.ScrollFrames | app/src/main/java/com/blindknot/rockfm/RadioPlayerActivity.kt:359-364 | one scroll cycle writes len(text) + 3 frames, and frame i is len(text) + 4 − i ≥ 2 characters long |
| Scroller.ScrollShifts | app/src/main/java/com/blindknot/rockfm/RadioPlayerActivity.kt:359-364 | a cycle starts with the whole padded text, each frame is the previous one moved one column left, and the last frame is the last text character followed by a blank |
| Scroller.ScrollFramesUnique | app/src/main/java/com/blindknot/rockfm/RadioPlayerActivity.kt:359-364 | any len(text) + 3 frames that start with the padded text and move one column per frame are exactly the scroll cycle |
| Scroller.ScrollCycle | app/src/main/java/com/blindknot/rockfm/RadioPlayerActivity.kt:361-364 | the inner `for` loop, run as a loop, emits exactly the scroll cycle: len(text) + 3 writes, starting from the padded text and shifting by one each time |
| Scroller.NthWrite | app/src/main/java/com/blindknot/rockfm/RadioPlayerActivity.kt:359-365 | every write of the endless scroll loop is a tail of the padded text, at least two columns long (the last character and the trailing blank); its periodicity is stated by ScrollRepeats and ScrollStep |
| Scroller.ScrollRepeats | app/src/main/java/com/blindknot/rockfm/RadioPlayerActivity.kt:360-365 | the endless loop is periodic with period len(text) + 3, and every whole number of cycles brings the output back to offset 0 (the whole padded text) |
| Scroller.ScrollStep | app/src/main/java/com/blindknot/rockfm/RadioPlayerActivity.kt:360-365 | within a cycle each write is the previous one shifted by a column; the write after a cycle's last is the padded text again |
| Display.CancelCurrent | app/src/main/java/com/blindknot/rockfm/RadioPlayerActivity.kt:326 | cancelling marks only the referenced (newest) scroll task as cancelled; all tasks keep their text and the older ones are untouched |
| Display.UpdateDisplay | app/src/main/java/com/blindknot/rockfm/RadioPlayerActivity.kt:323-334 | without a display nothing changes; otherwise the screen is cleared, the current scroller is cancelled, text of at most 4 characters is written directly with no scroller running afterwards, longer text leaves exactly one running scroller holding it, and the display then presents the requested text |
| Display.ScrollRevealsText | app/src/main/java/com/blindknot/rockfm/RadioPlayerActivity.kt:357-364 | the j-th scroll write shows a full 4-character window whose rightmost column is the j-th character of the text, so every character is seen once per cycle |
| Display.ScrollStartsBlank | app/src/main/java/com/blindknot/rockfm/RadioPlayerActivity.kt:359-362 | the first scroll write shows three blanks followed by the first character of the text |
| RadioPanel.HandleMuteStates | app/src/main/java/com/blindknot/rockfm/RadioPlayerActivity.kt:146-149 | with a display, it then presents the station name iff the volume is above 0, and "MUTE" iff it is 0 |
| RadioPanel.VolumeUp | app/src/main/java/com/blindknot/rockfm/RadioPlayerActivity.kt:98-114 | below the maximum the volume rises by exactly 1 and only the up LED is switched on; at the maximum nothing at all changes and the only call is the strip update; below the maximum the calls are exactly: set the volume, light the up LED, the optional display refresh, the strip update; the strip (present or absent as before) shows the frame for the resulting volume; the display refresh is requested (with the station name) iff the volume went from 0 to 1 |
| RadioPanel.VolumeDown | app/src/main/java/com/blindknot/rockfm/RadioPlayerActivity.kt:98-114 | above 0 the volume falls by exactly 1 and only the down LED is switched on; at 0 nothing at all changes and the only call is the strip update; above 0 the calls are exactly: set the volume, light the down LED, the optional display refresh, the strip update; the strip (present or absent as before) shows the frame for the resulting volume; the display refresh is requested (with "MUTE") iff the volume went from 1 to 0 |
| RadioPanel.ToggleMuteKey | app/src/main/java/com/blindknot/rockfm/RadioPlayerActivity.kt:116-122 | the calls are exactly four: the mixer toggle, lighting the mute LED, one display refresh with the text chosen for the read-back value, and the strip update; the volume becomes the read-back value and the strip (present or absent as before) shows its frame |
| RadioPanel.UpdateLedStrip | app/src/main/java/com/blindknot/rockfm/RadioPlayerActivity.kt:342-352 | there is no write without a strip: an absent strip stays absent; a present strip gets the frame for `value` out of `maxValue`, with exactly LitCount pixels lit |
| RadioPanel.KeyDown | app/src/main/java/com/blindknot/rockfm/RadioPlayerActivity.kt:97-124 | a press keeps the panel invariant; the resulting volume is the clamped +1 for C, the clamped −1 for B and the read-back value for A; A, B and C end with the strip update for that volume, and their call sequences are pinned as in the three rows above (a lone strip update when C or B is at its limit); LEDs of other keys are untouched; the display refreshes exactly on the transitions into 1 (C) or 0 (B) and on every A, always with the text for the resulting volume, and is unchanged otherwise; any other key changes nothing |
| RadioPanel.KeyUp | app/src/main/java/com/blindknot/rockfm/RadioPlayerActivity.kt:132-139 | a release switches off the LED of that key only; the other LEDs, the volume, the display and the strip are unchanged; its only call is at most one switch-off of the released key's LED, and an unhandled key makes no call |
| RadioPanel.StreamPrepared | app/src/main/java/com/blindknot/rockfm/RadioPlayerActivity.kt:394-397 | when preparation ends the display (if present) presents the station name and nothing else in the panel changes |
| RadioPanel.Run | app/src/main/java/com/blindknot/rockfm/RadioPlayerActivity.kt:97-139 | over any sequence of events (with the mixer volume changed only by these handlers) the volume stays in [0, max], the strip always shows the frame for the current volume, and the optional display and strip stay present or absent |
| RadioPanel.KeyStepTracksVolume | app/src/main/java/com/blindknot/rockfm/RadioPlayerActivity.kt:97-147 | one key event leaves a display that shows the text for the volume still showing the text for the (new) volume |
| RadioPanel.KeysKeepDisplayTracking | app/src/main/java/com/blindknot/rockfm/RadioPlayerActivity.kt:97-147 | over any sequence of key presses and releases, refreshing only at the 0/1 transitions and on mute toggles keeps the display in agreement with the volume |
| RadioPanel.StationNameWhileSilent | app/src/main/java/com/blindknot/rockfm/RadioPlayerActivity.kt:394-397 | when stream preparation ends at volume 0 the display shows the station name, disagreeing with the volume, and a B press (a no-op at 0) leaves that state unchanged |
| RadioPanel.Startup | app/src/main/java/com/blindknot/rockfm/RadioPlayerActivity.kt:62-79 | failing buttons or LEDs abort startup; otherwise all LEDs are off, the display and strip are present exactly when they opened, the strip shows the volume, and the station-name scroller started during setup is the only task and is cancelled, with "WAIT" shown |
| RadioPanel.FiveStepsDown | app/src/main/java/com/blindknot/rockfm/RadioPlayerActivity.kt:106-113 | from volume 3 of 10, five presses of B reach volume 0 with "MUTE" on the display and an all-off strip |
| RadioPanel.StartupShowsWait | app/src/main/java/com/blindknot/rockfm/RadioPlayerActivity.kt:399-402 | after a full startup the display shows "WAIT" whatever the volume, and at volume 2 or more a B or C press does not replace it |

## Left out

- LedStrip.LitCount: computes value·7/max in integers. The source divides two floats, multiplies by 7 and truncates (line 344). The model assumes that float rounding never crosses an integer boundary. It also assumes `max > 0` and `0 ≤ value ≤ max`, which the mixer guarantees. What the source does outside that range is not modelled. There it depends on how Kotlin converts NaN and infinities to `Int` and on `Int` wrap-around. Depending on the input, the strip ends up all off, partly or fully lit, or the loop indexes outside the array. For example, 11 of 10 lights all seven pixels, while 12 of 10 and any non-zero value with `max == 0` fail.
- Colours: a lit pixel is `Lit(i)`, meaning hue i·360/7 at full saturation and value. `Color.HSVToColor` and its float arithmetic are not modelled.
- The media player task (`Player.doInBackground`, the prepared/completion listeners, `release`). It is a foreign playback engine. Only its two display calls are modelled: "WAIT" when it starts, inside `Startup`, and the station name when it ends (`StreamPrepared`).
- Threading: the scroll task's background execution, `cancel(true)` interruption, and the 400 ms sleep. A scroller is a cancellable value, and its output is the frame sequence `NthWrite`. Races between a cancelled scroller's last write and the next direct write are not modelled.
- Peripheral I/O: opening, configuring and closing GPIO lines, the I²C display and the SPI strip, and the release functions called from `onDestroy`. Each open is a boolean input to `Startup`. Startup models only the outcome: fatal for buttons and LEDs, absent for the display and strip.
- A failing write: `updateLed` logs and ignores an I/O error, and an error from the strip or display write is not caught. The model assumes every write succeeds.
- The mixer. `setStreamVolume` is assumed to take effect, so the volume read back after it is the value set. The effect of `ADJUST_TOGGLE_MUTE` is owned by the mixer, so the volume read back after a toggle is an input, `readBack`, in `[0, max]`.
- The mixer volume as shared state. The source reads the volume from the mixer again on every press (line 99) and for every strip write (line 113). The model keeps it in `Panel` between events, so it assumes that only these handlers change the mixer volume. A change from elsewhere leaves the source's strip and display stale until the next key; `Valid` and `RadioPanel.Run` do not cover that case. After a toggle the source reads the volume twice (lines 119 and 120). The model takes both reads to return the same `readBack`.
- The display driver's own rendering: how it shows a string longer than four characters and how it merges '.' into the previous character. `Display.Visible` takes the first four characters.
- Unhandled keys: `onKeyDown` passes them to the framework's `onKeyUp`. The model treats them as a no-op. The handlers' boolean return values and all logging are not modelled.

=== FILE: Display.dfy ===
/** The four-character alphanumeric display and the policy that decides how text
    reaches it: short text is written directly, longer text is handed to a scroll
    task, and at most one scroll task may be running at a time. */
module Display {
  import Scroller

  /** Characters the display shows at once. */
  const DisplaySize: nat := 4

  /** A scroll task started by the controller, and whether it has been cancelled. */
  datatype ScrollTask = ScrollTask(text: string, cancelled: bool)

  /** The optional display. `Absent` when it could not be opened. Otherwise `screen`
      is the last string written directly (empty after a clear) and `tasks` are the
      scroll tasks started on it, oldest first; only the last is still referenced by
      the controller, so only the last can be cancelled by a later update. */
  datatype Display = Absent | Present(screen: string, tasks: seq<ScrollTask>)

  /** A display as the controller keeps it: every task but the most recent has
      been cancelled, and every task scrolls text too wide to be shown at once. */
  predicate WellFormed(d: Display)
  {
    d.Present? ==>
      && (forall i :: 0 <= i < |d.tasks| - 1 ==> d.tasks[i].cancelled)
      && (forall i :: 0 <= i < |d.tasks| ==> |d.tasks[i].text| > DisplaySize)
  }

  /** Indices of the scroll tasks still running. */
  function Running(d: Display): set<int>
  {
    if d.Absent? then {} else set i | 0 <= i < |d.tasks| && !d.tasks[i].cancelled
  }

  /** The text the display is presenting: that of a running scroll task, if the
      most recent one still runs, otherwise the last direct write. */
  function Showing(d: Display): string
    requires d.Present?
  {
    if |d.tasks| > 0 && !d.tasks[|d.tasks| - 1].cancelled then d.tasks[|d.tasks| - 1].text
    else d.screen
  }

  /** Cancel the task the controller references, if any; the others are untouched. */
  function CancelCurrent(tasks: seq<ScrollTask>): (r: seq<ScrollTask>)
    ensures |r| == |tasks|
    ensures forall i :: 0 <= i < |tasks| ==> r[i].text == tasks[i].text
    ensures forall i :: 0 <= i < |tasks| - 1 ==> r[i] == tasks[i]
    ensures |tasks| > 0 ==> r[|tasks| - 1].cancelled
  {
    if |tasks| == 0 then tasks
    else tasks[|tasks| - 1 := tasks[|tasks| - 1].(cancelled := true)]
  }

  /** Show `text`: nothing happens without a display; otherwise clear it, cancel the
      current scroll task, then write short text directly or start one new scroll
      task for text wider than the display. */
  function UpdateDisplay(d: Display, text: string): (d': Display)
    ensures d.Absent? ==> d' == Absent
    ensures d.Present? ==> d'.Present? && Showing(d') == text
    ensures d.Present? && |text| <= DisplaySize ==> d'.screen == text && |d'.tasks| == |d.tasks|
    ensures d.Present? && |text| > DisplaySize ==>
      && d'.screen == []
      && |d'.tasks| == |d.tasks| + 1
      && d'.tasks[|d.tasks|] == ScrollTask(text, false)
    ensures d.Present? ==> forall i :: 0 <= i < |d.tasks| ==> d'.tasks[i].text == d.tasks[i].text
    ensures WellFormed(d) && d.Present? ==> forall i :: 0 <= i < |d.tasks| ==> d'.tasks[i].cancelled
    ensures WellFormed(d) ==> WellFormed(d')
    ensures WellFormed(d) && d.Present? ==>
      Running(d') == if |text| > DisplaySize then {|d.tasks|} else {}
  {
    match d
    case Absent => Absent
    case Present(_, tasks) =>
      var stopped := CancelCurrent(tasks);
      var d' :=
        if |text| > DisplaySize then Present([], stopped + [ScrollTask(text, false)])
        else Present(text, stopped);
      if WellFormed(d) then
        NoOlderTaskRuns(d, d');
        d'
      else d'
  }

  /** After the current task is cancelled in a well-formed display, no task of it is
      left running; so the only task that can run afterwards is a newly appended one. */
  lemma NoOlderTaskRuns(d: Display, d': Display)
    requires WellFormed(d) && d.Present? && d'.Present?
    requires |d.tasks| <= |d'.tasks| <= |d.tasks| + 1
    requires d'.tasks[..|d.tasks|] == CancelCurrent(d.tasks)
    ensures forall i :: 0 <= i < |d.tasks| ==> d'.tasks[i].cancelled
    ensures Running(d') == if |d'.tasks| == |d.tasks| || d'.tasks[|d.tasks|].cancelled then {} else {|d.tasks|}
  {
    var n := |d.tasks|;
    forall i | 0 <= i < n ensures d'.tasks[i].cancelled {
      assert d'.tasks[i] == d'.tasks[..n][i];
    }
  }

  /** The part of a written string the display can show: its first DisplaySize characters. */
  function Visible(s: string): (v: string)
    ensures |v| == if |s| < DisplaySize then |s| else DisplaySize
    ensures v <= s
  {
    if |s| < DisplaySize then s else s[..DisplaySize]
  }

  /** Scrolling reveals the whole text: the `j`-th write of a scroll task puts the
      `j`-th character of the text in the rightmost column of the display, so every
      character is seen once per cycle. */
  lemma ScrollRevealsText(text: string)
    ensures forall j :: 0 <= j < |text| ==>
      |Visible(Scroller.NthWrite(text, j))| == DisplaySize &&
      Visible(Scroller.NthWrite(text, j))[DisplaySize - 1] == text[j]
  {
    forall j | 0 <= j < |text|
      ensures |Visible(Scroller.NthWrite(text, j))| == DisplaySize
      ensures Visible(Scroller.NthWrite(text, j))[DisplaySize - 1] == text[j]
    {
      assert j % (|text| + 3) == j;
      var p := Scroller.Padded(text);
      assert Scroller.NthWrite(text, j) == p[j..];
      assert p[j + 3] == text[j];
    }
  }

  /** The first write of a scroll task shows three blanks and then the first
      character of the text. */
  lemma ScrollStartsBlank(text: string)
    requires |text| > 0
    ensures Visible(Scroller.NthWrite(text, 0)) == Scroller.LeadIn + [text[0]]
  {
    Scroller.ScrollShifts(text);
  }
}

=== FILE: LedStrip.dfy ===
/** The seven-pixel RGB bar that shows the music-stream volume as a rising,
    rainbow-coloured level meter. */
module LedStrip {

  /** Number of addressable pixels on the strip. */
  const StripSize: nat := 7

  /** A pixel colour. `Lit(h)` is the fully saturated, full-value colour whose hue
      is h * 360 / StripSize degrees; the HSV-to-RGB conversion is not modelled,
      so a lit pixel is identified by its hue index alone. `Off` is black (0). */
  datatype Pixel = Off | Lit(hue: nat)

  /** One write to the strip: a colour per position, index 0 first. */
  type Frame = seq<Pixel>

  /** Number of pixels lit for `value` out of `maxValue`: the floor of
      value / maxValue * StripSize, here computed on integers. */
  function LitCount(value: int, maxValue: int): (n: nat)
    requires 0 < maxValue && 0 <= value <= maxValue
    ensures n * maxValue <= value * StripSize < (n + 1) * maxValue
    ensures n <= StripSize
    ensures n == 0 <==> value * StripSize < maxValue
    ensures n == StripSize <==> value == maxValue
  {
    var n := value * StripSize / maxValue;
    FloorDivision(value * StripSize, maxValue);
    FloorBelow(n, value, maxValue);
    n
  }

  /** Euclidean division by a positive divisor brackets the dividend. */
  lemma FloorDivision(a: int, d: int)
    requires 0 <= a && 0 < d
    ensures 0 <= a / d
    ensures (a / d) * d <= a < (a / d + 1) * d
  {
    assert a == (a / d) * d + a % d;
  }

  /** Multiplying by a positive factor preserves order, strict and non-strict. */
  lemma Scale(x: int, y: int, d: int)
    requires 0 < d
    ensures x < y ==> x * d < y * d
    ensures x <= y ==> x * d <= y * d
  {
    assert y * d == x * d + (y - x) * d;
  }

  /** A floor of value * StripSize / maxValue is at most StripSize, and equals it
      only at value == maxValue. */
  lemma FloorBelow(n: int, value: int, maxValue: int)
    requires 0 < maxValue && 0 <= value <= maxValue
    requires n * maxValue <= value * StripSize < (n + 1) * maxValue
    ensures n <= StripSize
    ensures n == StripSize <==> value == maxValue
  {
    Scale(value, maxValue, StripSize);
    Scale(StripSize, n, maxValue);
    Scale(n + 1, StripSize, maxValue);
  }

  /** The frame the strip should show for `value` out of `maxValue`: the top
      LitCount positions carry their own hue, every other position is off. */
  function StripFrame(value: int, maxValue: int): (f: Frame)
    requires 0 < maxValue && 0 <= value <= maxValue
    ensures |f| == StripSize
  {
    var lit := LitCount(value, maxValue);
    seq(StripSize, i requires 0 <= i < StripSize => if StripSize - lit <= i then Lit(i) else Off)
  }

  /** The all-black frame. */
  function DarkFrame(): (f: Frame)
    ensures |f| == StripSize
  {
    seq(StripSize, _ => Off)
  }

  /** The rendering loop: start from an all-off frame and colour positions
      StripSize - lit .. StripSize - 1, each with the hue of its own index. */
  method RenderStrip(value: int, maxValue: int) returns (rainbow: Frame)
    requires 0 < maxValue && 0 <= value <= maxValue
    ensures |rainbow| == StripSize
    ensures forall i :: 0 <= i < StripSize ==>
      (rainbow[i].Lit? <==> StripSize - LitCount(value, maxValue) <= i)
    ensures forall i :: 0 <= i < StripSize && rainbow[i].Lit? ==> rainbow[i].hue == i
    ensures rainbow == StripFrame(value, maxValue)
  {
    var affected := LitCount(value, maxValue);
    rainbow := DarkFrame();
    var i := StripSize - affected;
    while i < StripSize
      invariant StripSize - affected <= i <= StripSize
      invariant |rainbow| == StripSize
      invariant forall j :: 0 <= j < StripSize ==>
        rainbow[j] == (if StripSize - affected <= j < i then Lit(j) else Off)
    {
      rainbow := rainbow[i := Lit(i)];
      i := i + 1;
    }
  }

  /** Number of pixels of `f` that are not off. */
  function LitPixels(f: Frame): nat
  {
    if |f| == 0 then 0 else (if f[0].Lit? then 1 else 0) + LitPixels(f[1..])
  }

  /** A frame lit exactly on its top `k` positions has exactly `k` lit pixels. */
  lemma {:induction false} TopBarCount(f: Frame, k: nat)
    requires k <= |f|
    requires forall i :: 0 <= i < |f| ==> (f[i].Lit? <==> |f| - k <= i)
    ensures LitPixels(f) == k
  {
    if |f| > 0 {
      var rest := f[1..];
      if k == |f| {
        assert f[0].Lit?;
        assert forall i :: 0 <= i < |rest| ==> (rest[i].Lit? <==> |rest| - (k - 1) <= i) by {
          forall i | 0 <= i < |rest| ensures rest[i].Lit? <==> |rest| - (k - 1) <= i {
            assert rest[i] == f[i + 1];
          }
        }
        TopBarCount(rest, k - 1);
      } else {
        assert !f[0].Lit?;
        assert forall i :: 0 <= i < |rest| ==> (rest[i].Lit? <==> |rest| - k <= i) by {
          forall i | 0 <= i < |rest| ensures rest[i].Lit? <==> |rest| - k <= i {
            assert rest[i] == f[i + 1];
          }
        }
        TopBarCount(rest, k);
      }
    }
  }

  /** Exactly LitCount(value, maxValue) of the seven pixels are lit. */
  lemma StripLitCount(value: int, maxValue: int)
    requires 0 < maxValue && 0 <= value <= maxValue
    ensures LitPixels(StripFrame(value, maxValue)) == LitCount(value, maxValue)
  {
    TopBarCount(StripFrame(value, maxValue), LitCount(value, maxValue));
  }

  /** Silence shows a dark strip and full volume lights every pixel, each in its own hue. */
  lemma StripEnds(maxValue: int)
    requires 0 < maxValue
    ensures StripFrame(0, maxValue) == DarkFrame()
    ensures forall i :: 0 <= i < StripSize ==> StripFrame(maxValue, maxValue)[i] == Lit(i)
  {
  }

  /** The bar rises with the volume: every pixel lit at a lower value is lit, with the
      same colour, at any higher value. */
  lemma StripRises(low: int, high: int, maxValue: int)
    requires 0 < maxValue && 0 <= low <= high <= maxValue
    ensures LitCount(low, maxValue) <= LitCount(high, maxValue)
    ensures forall i :: 0 <= i < StripSize && StripFrame(low, maxValue)[i].Lit? ==>
      StripFrame(high, maxValue)[i] == StripFrame(low, maxValue)[i]
  {
    var a, b := LitCount(low, maxValue), LitCount(high, maxValue);
    Scale(low, high, StripSize);
    Scale(b + 1, a, maxValue);
  }
}

=== FILE: RadioPanel.dfy ===
/** The radio's control panel: three buttons with one LED each, the music-stream
    volume they adjust, and the display and LED strip that report that volume.
    Each key edge is a pure step from one panel state to the next, together with
    the calls the handler makes on the outside world. */
module RadioPanel {
  import LedStrip
  import Display

  /** Shown while the station is audible, and once the stream has been prepared. */
  const StationName: string := "ROCK FM"

  /** Shown when the volume reads 0. */
  const MuteText: string := "MUTE"

  /** Shown while the stream is being prepared. */
  const WaitText: string := "WAIT"

  /** Keys delivered by the button drivers: C raises the volume, B lowers it,
      A toggles mute; any other key is not handled here. */
  datatype Key = KeyA | KeyB | KeyC | OtherKey

  /** The LED next to each button. */
  datatype Led = UpLed | DownLed | MuteLed

  /** On/off state of the three button LEDs. */
  datatype Leds = Leds(up: bool, down: bool, mute: bool)

  /** The optional LED strip: absent when it could not be opened, otherwise the
      last frame written to it. */
  datatype Strip = StripAbsent | StripPresent(frame: LedStrip.Frame)

  /** Everything the handlers read or change. `volume` and `maxVolume` are what the
      audio mixer reports for the music stream. */
  datatype Panel = Panel(
    volume: int,
    maxVolume: int,
    leds: Leds,
    display: Display.Display,
    strip: Strip)

  /** Calls a handler makes, in the order it makes them: calls on the mixer and the
      LEDs, and calls of the display and strip helpers (`ShowText`, `WriteStrip`).
      Those two helpers do nothing when their peripheral is absent, so a `ShowText`
      or `WriteStrip` in a trace is a request, not necessarily a device write. */
  datatype Effect =
    | SetVolume(level: int)
    | ToggleMute
    | SetLed(led: Led, on: bool)
    | ShowText(text: string)
    | WriteStrip(level: int)

  /** The panel after a handler ran, and the calls it made. */
  datatype Reaction = Reaction(panel: Panel, effects: seq<Effect>)

  /** The LED each handled key is bound to. */
  predicate Binds(key: Key, led: Led)
  {
    match key
    case KeyC => led == UpLed
    case KeyB => led == DownLed
    case KeyA => led == MuteLed
    case OtherKey => false
  }

  function IsLit(leds: Leds, led: Led): bool
  {
    match led
    case UpLed => leds.up
    case DownLed => leds.down
    case MuteLed => leds.mute
  }

  /** Switch one LED; the other two keep their state. */
  function WithLed(leds: Leds, led: Led, on: bool): (r: Leds)
    ensures IsLit(r, led) == on
    ensures forall other :: other != led ==> IsLit(r, other) == IsLit(leds, other)
  {
    match led
    case UpLed => leds.(up := on)
    case DownLed => leds.(down := on)
    case MuteLed => leds.(mute := on)
  }

  /** The strip, if present, shows the frame for the current volume. */
  predicate StripShowsVolume(p: Panel)
    requires 0 < p.maxVolume && 0 <= p.volume <= p.maxVolume
  {
    p.strip.StripPresent? ==> p.strip.frame == LedStrip.StripFrame(p.volume, p.maxVolume)
  }

  /** The invariant every handler keeps: the volume lies in [0, maxVolume] with a
      positive maximum, the strip reflects it, and the display's scroll tasks are
      as the display controller keeps them. */
  predicate Valid(p: Panel)
  {
    && 0 < p.maxVolume
    && 0 <= p.volume <= p.maxVolume
    && StripShowsVolume(p)
    && Display.WellFormed(p.display)
  }

  /** The text chosen for a volume read from the mixer. */
  function VolumeText(volume: int): string
  {
    if volume > 0 then StationName else MuteText
  }

  /** Report an (un)muted state: show the station name when `volume` is audible and
      "MUTE" otherwise. */
  function HandleMuteStates(d: Display.Display, volume: int): (r: Display.Display)
    ensures d.Absent? ==> r == d
    ensures d.Present? ==> r.Present?
    ensures d.Present? ==> (Display.Showing(r) == StationName <==> volume > 0)
    ensures d.Present? ==> (Display.Showing(r) == MuteText <==> volume <= 0)
    ensures Display.WellFormed(d) ==> Display.WellFormed(r)
  {
    Display.UpdateDisplay(d, VolumeText(volume))
  }

  /** Write the frame for `value` out of `maxValue` to the strip, if there is one. */
  function UpdateLedStrip(s: Strip, value: int, maxValue: int): (s': Strip)
    requires 0 < maxValue && 0 <= value <= maxValue
    ensures s.StripAbsent? ==> s' == StripAbsent
    ensures s.StripPresent? ==> s'.StripPresent? && s'.frame == LedStrip.StripFrame(value, maxValue)
    ensures s'.StripPresent? ==> LedStrip.LitPixels(s'.frame) == LedStrip.LitCount(value, maxValue)
  {
    LedStrip.StripLitCount(value, maxValue);
    match s
    case StripAbsent => StripAbsent
    case StripPresent(_) => StripPresent(LedStrip.StripFrame(value, maxValue))
  }

  /** Texts sent to the display, in order. */
  function Shown(effects: seq<Effect>): seq<string>
  {
    if |effects| == 0 then []
    else (if effects[0].ShowText? then [effects[0].text] else []) + Shown(effects[1..])
  }

  lemma {:induction false} ShownAppend(a: seq<Effect>, b: seq<Effect>)
    ensures Shown(a + b) == Shown(a) + Shown(b)
    decreases |a|
  {
    if |a| == 0 {
      assert a + b == b;
    } else {
      assert (a + b)[0] == a[0];
      assert (a + b)[1..] == a[1..] + b;
      ShownAppend(a[1..], b);
    }
  }

  lemma ShownSingle(e: Effect)
    ensures Shown([e]) == if e.ShowText? then [e.text] else []
  {
    assert [e][1..] == [];
  }

  /** Key C: one step louder unless already at the maximum, where nothing changes
      (no LED, no display refresh) apart from the strip being rendered again. */
  function VolumeUp(p: Panel): (r: Reaction)
    requires Valid(p)
    ensures Valid(r.panel) && r.panel.maxVolume == p.maxVolume
    ensures r.panel.strip == UpdateLedStrip(p.strip, r.panel.volume, p.maxVolume)
    ensures p.volume < p.maxVolume ==>
      r.panel.volume == p.volume + 1 && r.panel.leds == WithLed(p.leds, UpLed, true)
    ensures p.volume == p.maxVolume ==> r.panel == p && r.effects == [WriteStrip(p.volume)]
    ensures p.volume < p.maxVolume ==>
      && |r.effects| == 3 + |Shown(r.effects)|
      && r.effects[0] == SetVolume(r.panel.volume) && r.effects[1] == SetLed(UpLed, true)
    ensures |r.effects| > 0 && r.effects[|r.effects| - 1] == WriteStrip(r.panel.volume)
    ensures |Shown(r.effects)| > 0 <==> p.volume == 0
    ensures Shown(r.effects) <= [StationName]
    ensures p.volume == 0 ==> r.panel.display == Display.UpdateDisplay(p.display, StationName)
    ensures p.volume != 0 ==> r.panel.display == p.display
  {
    if p.volume < p.maxVolume then
      var v := p.volume + 1;
      var refresh := if v == 1 then [ShowText(VolumeText(v))] else [];
      var display := if v == 1 then HandleMuteStates(p.display, v) else p.display;
      ShownAppend([SetVolume(v), SetLed(UpLed, true)], refresh);
      ShownAppend([SetVolume(v), SetLed(UpLed, true)] + refresh, [WriteStrip(v)]);
      Reaction(
        p.(volume := v, leds := WithLed(p.leds, UpLed, true), display := display,
           strip := UpdateLedStrip(p.strip, v, p.maxVolume)),
        [SetVolume(v), SetLed(UpLed, true)] + refresh + [WriteStrip(v)])
    else
      Reaction(p.(strip := UpdateLedStrip(p.strip, p.volume, p.maxVolume)), [WriteStrip(p.volume)])
  }

  /** Key B: one step quieter unless already at 0, where nothing changes (no LED, no
      display refresh) apart from the strip being rendered again. */
  function VolumeDown(p: Panel): (r: Reaction)
    requires Valid(p)
    ensures Valid(r.panel) && r.panel.maxVolume == p.maxVolume
    ensures r.panel.strip == UpdateLedStrip(p.strip, r.panel.volume, p.maxVolume)
    ensures p.volume > 0 ==>
      r.panel.volume == p.volume - 1 && r.panel.leds == WithLed(p.leds, DownLed, true)
    ensures p.volume == 0 ==> r.panel == p && r.effects == [WriteStrip(0)]
    ensures p.volume > 0 ==>
      && |r.effects| == 3 + |Shown(r.effects)|
      && r.effects[0] == SetVolume(r.panel.volume) && r.effects[1] == SetLed(DownLed, true)
    ensures |r.effects| > 0 && r.effects[|r.effects| - 1] == WriteStrip(r.panel.volume)
    ensures |Shown(r.effects)| > 0 <==> p.volume == 1
    ensures Shown(r.effects) <= [MuteText]
    ensures p.volume == 1 ==> r.panel.display == Display.UpdateDisplay(p.display, MuteText)
    ensures p.volume != 1 ==> r.panel.display == p.display
  {
    if p.volume > 0 then
      var v := p.volume - 1;
      var refresh := if v == 0 then [ShowText(VolumeText(v))] else [];
      var display := if v == 0 then HandleMuteStates(p.display, v) else p.display;
      ShownAppend([SetVolume(v), SetLed(DownLed, true)], refresh);
      ShownAppend([SetVolume(v), SetLed(DownLed, true)] + refresh, [WriteStrip(v)]);
      Reaction(
        p.(volume := v, leds := WithLed(p.leds, DownLed, true), display := display,
           strip := UpdateLedStrip(p.strip, v, p.maxVolume)),
        [SetVolume(v), SetLed(DownLed, true)] + refresh + [WriteStrip(v)])
    else
      Reaction(p.(strip := UpdateLedStrip(p.strip, p.volume, p.maxVolume)), [WriteStrip(p.volume)])
  }

  /** Key A: toggle the mixer's mute, light the mute LED, and report the volume the
      mixer reads back afterwards (`readBack`) on the display and the strip. */
  function ToggleMuteKey(p: Panel, readBack: int): (r: Reaction)
    requires Valid(p)
    requires 0 <= readBack <= p.maxVolume
    ensures Valid(r.panel) && r.panel.maxVolume == p.maxVolume
    ensures r.panel.volume == readBack
    ensures r.panel.strip == UpdateLedStrip(p.strip, readBack, p.maxVolume)
    ensures r.panel.leds == WithLed(p.leds, MuteLed, true)
    ensures r.panel.display == HandleMuteStates(p.display, readBack)
    ensures Shown(r.effects) == [if readBack > 0 then StationName else MuteText]
    ensures |r.effects| == 4 && r.effects[0] == ToggleMute && r.effects[1] == SetLed(MuteLed, true)
    ensures r.effects[|r.effects| - 1] == WriteStrip(readBack)
  {
    var text := VolumeText(readBack);
    ShownAppend([ToggleMute, SetLed(MuteLed, true)], [ShowText(text), WriteStrip(readBack)]);
    ShownAppend([ToggleMute], [SetLed(MuteLed, true)]);
    ShownAppend([ShowText(text)], [WriteStrip(readBack)]);
    ShownSingle(ToggleMute);
    ShownSingle(SetLed(MuteLed, true));
    ShownSingle(ShowText(text));
    ShownSingle(WriteStrip(readBack));
    Reaction(
      p.(volume := readBack, leds := WithLed(p.leds, MuteLed, true),
         display := HandleMuteStates(p.display, readBack),
         strip := UpdateLedStrip(p.strip, readBack, p.maxVolume)),
      [ToggleMute, SetLed(MuteLed, true)] + [ShowText(text), WriteStrip(readBack)])
  }

  /** A key press. Keys A, B and C are handled and end by rendering the strip from
      the resulting volume; only the pressed key's LED can change; other keys are
      passed on and change nothing here. */
  function KeyDown(p: Panel, key: Key, readBack: int): (r: Reaction)
    requires Valid(p)
    requires key == KeyA ==> 0 <= readBack <= p.maxVolume
    ensures Valid(r.panel) && r.panel.maxVolume == p.maxVolume
    ensures key != OtherKey ==> |r.effects| > 0 && r.effects[|r.effects| - 1] == WriteStrip(r.panel.volume)
    ensures key == OtherKey ==> r == Reaction(p, [])
    ensures forall led :: !Binds(key, led) ==> IsLit(r.panel.leds, led) == IsLit(p.leds, led)
    ensures key == KeyC ==> r.panel.leds.up == (p.leds.up || p.volume < p.maxVolume)
    ensures key == KeyB ==> r.panel.leds.down == (p.leds.down || p.volume > 0)
    ensures key == KeyA ==> r.panel.leds.mute
    ensures key == KeyC ==> (|Shown(r.effects)| > 0 <==> r.panel.volume == 1 && p.volume == 0)
    ensures key == KeyB ==> (|Shown(r.effects)| > 0 <==> r.panel.volume == 0 && p.volume == 1)
    ensures key == KeyA ==> |Shown(r.effects)| == 1
    ensures forall i :: 0 <= i < |Shown(r.effects)| ==> Shown(r.effects)[i] == VolumeText(r.panel.volume)
    ensures key == KeyC ==> r.panel.volume == if p.volume < p.maxVolume then p.volume + 1 else p.volume
    ensures key == KeyB ==> r.panel.volume == if p.volume > 0 then p.volume - 1 else 0
    ensures key == KeyA ==> r.panel.volume == readBack
    ensures |Shown(r.effects)| == 0 ==> r.panel.display == p.display
    ensures |Shown(r.effects)| == 1 ==>
      r.panel.display == Display.UpdateDisplay(p.display, VolumeText(r.panel.volume))
    ensures r.panel.strip == UpdateLedStrip(p.strip, r.panel.volume, p.maxVolume)
    ensures key == KeyC && p.volume < p.maxVolume ==>
      && |r.effects| == 3 + |Shown(r.effects)|
      && r.effects[0] == SetVolume(r.panel.volume) && r.effects[1] == SetLed(UpLed, true)
    ensures key == KeyB && p.volume > 0 ==>
      && |r.effects| == 3 + |Shown(r.effects)|
      && r.effects[0] == SetVolume(r.panel.volume) && r.effects[1] == SetLed(DownLed, true)
    ensures key == KeyA ==> |r.effects| == 4 && r.effects[0] == ToggleMute && r.effects[1] == SetLed(MuteLed, true)
    ensures (key == KeyC && p.volume == p.maxVolume) || (key == KeyB && p.volume == 0) ==>
      r.effects == [WriteStrip(p.volume)]
  {
    match key
    case KeyC => VolumeUp(p)
    case KeyB => VolumeDown(p)
    case KeyA => ToggleMuteKey(p, readBack)
    case OtherKey => Reaction(p, [])
  }

  /** A key release switches off the LED of that key and nothing else. */
  function KeyUp(p: Panel, key: Key): (r: Reaction)
    ensures r.panel == p.(leds := r.panel.leds)
    ensures forall led :: Binds(key, led) ==> !IsLit(r.panel.leds, led)
    ensures forall led :: !Binds(key, led) ==> IsLit(r.panel.leds, led) == IsLit(p.leds, led)
    ensures Valid(p) ==> Valid(r.panel)
    ensures forall e :: e in r.effects ==> e.SetLed? && !e.on && Binds(key, e.led)
    ensures key == OtherKey <==> r.effects == []
    ensures |r.effects| <= 1
  {
    match key
    case KeyC => Reaction(p.(leds := WithLed(p.leds, UpLed, false)), [SetLed(UpLed, false)])
    case KeyB => Reaction(p.(leds := WithLed(p.leds, DownLed, false)), [SetLed(DownLed, false)])
    case KeyA => Reaction(p.(leds := WithLed(p.leds, MuteLed, false)), [SetLed(MuteLed, false)])
    case OtherKey => Reaction(p, [])
  }

  /** The stream preparation finished, successfully or not: the station name is shown
      either way, and nothing else changes. */
  function StreamPrepared(p: Panel, succeeded: bool): (r: Panel)
    requires Valid(p)
    ensures Valid(r)
    ensures r == p.(display := r.display)
    ensures p.display.Absent? ==> r == p
    ensures p.display.Present? ==> r.display.Present? && Display.Showing(r.display) == StationName
  {
    p.(display := Display.UpdateDisplay(p.display, StationName))
  }

  /** The outcome of the preparation is ignored: a failed stream still brings the
      station name back to the display. */
  lemma PreparedIgnoresOutcome(p: Panel)
    requires Valid(p)
    ensures StreamPrepared(p, false) == StreamPrepared(p, true)
  {
  }

  /** Things that happen to the panel after startup. */
  datatype Event = Press(key: Key, readBack: int) | Release(key: Key) | Prepared(succeeded: bool)

  /** The event is one the mixer can produce: a mute toggle reads back a volume in range. */
  predicate Feasible(maxVolume: int, e: Event)
  {
    e.Press? && e.key == KeyA ==> 0 <= e.readBack <= maxVolume
  }

  predicate AllFeasible(maxVolume: int, events: seq<Event>)
  {
    forall i :: 0 <= i < |events| ==> Feasible(maxVolume, events[i])
  }

  function Step(p: Panel, e: Event): (r: Panel)
    requires Valid(p) && Feasible(p.maxVolume, e)
    ensures Valid(r) && r.maxVolume == p.maxVolume
    ensures r.display.Present? == p.display.Present? && r.strip.StripPresent? == p.strip.StripPresent?
  {
    match e
    case Press(key, readBack) => KeyDown(p, key, readBack).panel
    case Release(key) => KeyUp(p, key).panel
    case Prepared(succeeded) => StreamPrepared(p, succeeded)
  }

  /** The panel after a sequence of events: the volume never leaves [0, maxVolume],
      and the strip always shows the frame for the current volume. */
  function Run(p: Panel, events: seq<Event>): (r: Panel)
    requires Valid(p) && AllFeasible(p.maxVolume, events)
    ensures Valid(r) && r.maxVolume == p.maxVolume
    ensures 0 <= r.volume <= r.maxVolume
    ensures r.strip.StripPresent? ==> r.strip.frame == LedStrip.StripFrame(r.volume, r.maxVolume)
    ensures r.display.Present? == p.display.Present? && r.strip.StripPresent? == p.strip.StripPresent?
    decreases |events|
  {
    if |events| == 0 then p
    else
      var q := Step(p, events[0]);
      assert AllFeasible(q.maxVolume, events[1..]) by {
        forall i | 0 <= i < |events| - 1 ensures Feasible(q.maxVolume, events[1..][i]) {
          assert events[1..][i] == events[i + 1];
        }
      }
      Run(q, events[1..])
  }

  /** The display says what the volume is: the station name when audible, "MUTE" at 0. */
  predicate DisplayTracksVolume(p: Panel)
  {
    p.display.Present? ==> Display.Showing(p.display) == VolumeText(p.volume)
  }

  /** Refreshing the display only on the transitions into volume 1 (up) and 0 (down),
      and on every mute toggle, is enough: key events never leave the display
      showing text that disagrees with the volume. */
  lemma KeyStepTracksVolume(p: Panel, e: Event)
    requires Valid(p) && Feasible(p.maxVolume, e) && !e.Prepared?
    requires DisplayTracksVolume(p)
    ensures DisplayTracksVolume(Step(p, e))
  {
    if e.Press? && e.key == KeyA {
      var r := ToggleMuteKey(p, e.readBack);
      if p.display.Present? {
        assert Display.Showing(r.panel.display) == VolumeText(e.readBack);
      }
    }
  }

  /** Over any sequence of key presses and releases, a display that agrees with the
      volume keeps agreeing with it. */
  lemma {:induction false} KeysKeepDisplayTracking(p: Panel, events: seq<Event>)
    requires Valid(p) && AllFeasible(p.maxVolume, events)
    requires forall i :: 0 <= i < |events| ==> !events[i].Prepared?
    requires DisplayTracksVolume(p)
    ensures DisplayTracksVolume(Run(p, events))
    decreases |events|
  {
    if |events| > 0 {
      KeyStepTracksVolume(p, events[0]);
      var q := Step(p, events[0]);
      assert forall i :: 0 <= i < |events| - 1 ==> events[1..][i] == events[i + 1];
      KeysKeepDisplayTracking(q, events[1..]);
    }
  }

  /** Not every event keeps the display in agreement with the volume: when stream
      preparation ends while the volume reads 0, the station name is shown although
      nothing is audible, and a B press (a no-op at 0) leaves it there. */
  lemma StationNameWhileSilent(p: Panel)
    requires Valid(p) && p.volume == 0 && p.display.Present?
    ensures var q := StreamPrepared(p, true);
      && Display.Showing(q.display) == StationName
      && !DisplayTracksVolume(q)
      && KeyDown(q, KeyB, 0).panel == q
  {
  }

  /** Why startup stopped: a mandatory peripheral could not be opened. */
  datatype StartupError = ButtonsUnavailable | LedsUnavailable

  datatype StartupResult = Started(panel: Panel) | Aborted(error: StartupError)

  /** Bring the panel up with the mixer at `volume` out of `maxVolume`. Buttons and
      LEDs are mandatory and abort startup when they fail to open; the display and
      the strip are optional and are simply absent. An opened display first starts
      scrolling the station name, then shows "WAIT" once stream preparation begins;
      an opened strip shows the current volume. */
  function Startup(volume: int, maxVolume: int, buttonsOpen: bool, ledsOpen: bool,
                   displayOpens: bool, stripOpens: bool): (r: StartupResult)
    requires 0 < maxVolume && 0 <= volume <= maxVolume
    ensures !buttonsOpen ==> r == Aborted(ButtonsUnavailable)
    ensures buttonsOpen && !ledsOpen ==> r == Aborted(LedsUnavailable)
    ensures buttonsOpen && ledsOpen ==> r.Started?
    ensures r.Started? ==>
      && Valid(r.panel)
      && r.panel.volume == volume && r.panel.maxVolume == maxVolume
      && r.panel.leds == Leds(false, false, false)
      && (r.panel.display.Present? <==> displayOpens)
      && (r.panel.strip.StripPresent? <==> stripOpens)
    ensures r.Started? && displayOpens ==>
      && Display.Showing(r.panel.display) == WaitText
      && Display.Running(r.panel.display) == {}
      && r.panel.display.tasks == [Display.ScrollTask(StationName, true)]
  {
    if !buttonsOpen then Aborted(ButtonsUnavailable)
    else if !ledsOpen then Aborted(LedsUnavailable)
    else
      var blank := Display.Present([], []);
      var display := if displayOpens then Display.UpdateDisplay(blank, StationName) else Display.Absent;
      var strip := if stripOpens then StripPresent(LedStrip.StripFrame(volume, maxVolume)) else StripAbsent;
      Started(Panel(volume, maxVolume, Leds(false, false, false),
                    Display.UpdateDisplay(display, WaitText), strip))
  }

  /** Starting at volume 3 of 10 and pressing B five times reaches volume 0 with
      "MUTE" on the display and a dark strip. */
  lemma FiveStepsDown(p: Panel)
    requires p == Panel(3, 10, Leds(false, false, false),
                        Display.Present([], [Display.ScrollTask(StationName, false)]),
                        StripPresent(LedStrip.StripFrame(3, 10)))
    ensures Run(p, seq(5, _ => Press(KeyB, 0))).volume == 0
    ensures Run(p, seq(5, _ => Press(KeyB, 0))).display.Present?
    ensures Display.Showing(Run(p, seq(5, _ => Press(KeyB, 0))).display) == MuteText
    ensures Run(p, seq(5, _ => Press(KeyB, 0))).strip == StripPresent(LedStrip.DarkFrame())
  {
    var events := seq(5, _ => Press(KeyB, 0));
    assert DisplayTracksVolume(p);
    KeysKeepDisplayTracking(p, events);
    var q := p;
    var k := 0;
    while k < 5
      invariant 0 <= k <= 5
      invariant Valid(q) && q.maxVolume == 10 && q.volume == if 3 - k < 0 then 0 else 3 - k
      invariant Run(p, events) == Run(q, events[k..])
    {
      assert events[k..][1..] == events[k + 1..];
      q := Step(q, events[k]);
      k := k + 1;
    }
    assert events[5..] == [];
    LedStrip.StripEnds(10);
  }

  /** Startup leaves "WAIT" on the display whatever the volume, and volume keys that do
      not cross 0 or 1 do not replace it. */
  lemma StartupShowsWait(volume: int, maxVolume: int)
    requires 0 < maxVolume && 2 <= volume <= maxVolume
    ensures Startup(volume, maxVolume, true, true, true, true).Started?
    ensures var p := Startup(volume, maxVolume, true, true, true, true).panel;
      && !DisplayTracksVolume(p)
      && Display.Showing(KeyDown(p, KeyB, 0).panel.display) == WaitText
      && Display.Showing(KeyDown(p, KeyC, 0).panel.display) == WaitText
  {
  }
}

=== FILE: Scroller.dfy ===
/** The background scroll task that slides text wider than the display through it:
    the text is padded with blanks and written again and again, one column further
    each time, cycling forever until the task is cancelled. */
module Scroller {

  /** Blank columns scrolled in ahead of the text. */
  const LeadIn: string := "   "

  /** Blank column scrolled in after the text. */
  const TrailOut: string := " "

  /** The string the scroll task slides through the display. */
  function Padded(text: string): (p: string)
    ensures |p| == |text| + |LeadIn| + |TrailOut|
    ensures p[..|LeadIn|] == LeadIn && p[|LeadIn|..|LeadIn| + |text|] == text
    ensures p[|p| - 1] == ' '
  {
    LeadIn + text + TrailOut
  }

  /** One cycle of the scroll loop: the suffix of the padded text at every offset
      0 .. |padded| - 2, in that order. */
  function ScrollFrames(text: string): (frames: seq<string>)
    ensures |frames| == |text| + 3
    ensures forall i :: 0 <= i < |frames| ==> |frames[i]| == |text| + 4 - i >= 2
  {
    var p := Padded(text);
    seq(|p| - 1, i requires 0 <= i < |p| - 1 => p[i..])
  }

  /** Each frame is the one before it with its first column dropped. */
  predicate ShiftsByOne(frames: seq<string>)
  {
    forall i :: 0 <= i < |frames| - 1 ==> |frames[i]| > 0 && frames[i + 1] == frames[i][1..]
  }

  /** A cycle starts with the whole padded text, and every frame is the previous
      one moved one column to the left; the last frame is the last text character
      (a blank for empty text) followed by the trailing blank. */
  lemma ScrollShifts(text: string)
    ensures ScrollFrames(text)[0] == Padded(text)
    ensures ShiftsByOne(ScrollFrames(text))
    ensures ScrollFrames(text)[|text| + 2] ==
      (if |text| == 0 then " " else [text[|text| - 1]]) + TrailOut
  {
    var p, frames := Padded(text), ScrollFrames(text);
    assert frames[0] == p[0..] == p;
    forall i | 0 <= i < |frames| - 1 ensures |frames[i]| > 0 && frames[i + 1] == frames[i][1..] {
      assert frames[i + 1] == p[i + 1..];
    }
    assert frames[|text| + 2] == p[|text| + 2..];
    if |text| > 0 {
      assert p[|text| + 2] == text[|text| - 1];
    }
  }

  /** The shift description pins the cycle down: a sequence of |text| + 3 frames
      that starts with the padded text and moves one column per frame is exactly
      one cycle of the scroll loop. */
  lemma {:induction false} ScrollFramesUnique(text: string, frames: seq<string>)
    requires |frames| == |text| + 3
    requires frames[0] == Padded(text)
    requires ShiftsByOne(frames)
    ensures frames == ScrollFrames(text)
  {
    var p := Padded(text);
    ShiftedSuffixes(p, frames, |frames|);
  }

  /** Every frame of a shifting sequence that starts at `p` is the suffix of `p`
      at its own index, for the first `k` frames. */
  lemma {:induction false} ShiftedSuffixes(p: string, frames: seq<string>, k: nat)
    requires 0 < |frames| < |p| && k <= |frames|
    requires frames[0] == p
    requires ShiftsByOne(frames)
    ensures forall i :: 0 <= i < k ==> frames[i] == p[i..]
  {
    if k > 1 {
      ShiftedSuffixes(p, frames, k - 1);
      assert frames[k - 1] == frames[k - 2][1..] == p[k - 2..][1..];
      assert p[k - 2..][1..] == p[k - 1..];
    } else if k == 1 {
      assert frames[0] == p[0..];
    }
  }

  /** One pass of the task's inner loop, written as the loop it is: write the
      current frame, then move one column to the left. */
  method ScrollCycle(text: string) returns (writes: seq<string>)
    ensures |writes| == |text| + 3
    ensures writes[0] == Padded(text)
    ensures ShiftsByOne(writes)
    ensures writes == ScrollFrames(text)
  {
    var scrollText := Padded(text);
    var frame := scrollText;
    writes := [];
    var i := 0;
    while i < |scrollText| - 1
      invariant 0 <= i <= |scrollText| - 1
      invariant |writes| == i
      invariant frame == scrollText[i..]
      invariant forall j :: 0 <= j < i ==> writes[j] == scrollText[j..]
    {
      writes := writes + [frame];
      frame := frame[1..];
      i := i + 1;
    }
    ScrollShifts(text);
  }

  /** The `n`-th write of a scroll task that has not been cancelled (counting from 0):
      always a tail of the padded text, never shorter than the trailing blank and
      the column before it. */
  function NthWrite(text: string, n: nat): (s: string)
    ensures 2 <= |s| <= |Padded(text)|
    ensures s == Padded(text)[|Padded(text)| - |s|..]
  {
    ScrollFrames(text)[n % (|text| + 3)]
  }

  /** The output is periodic: after |text| + 3 writes the task repeats itself, and
      each full cycle restarts at offset 0 with the whole padded text. */
  lemma ScrollRepeats(text: string, n: nat, k: nat)
    ensures NthWrite(text, n + k * (|text| + 3)) == NthWrite(text, n)
    ensures NthWrite(text, k * (|text| + 3)) == Padded(text)
  {
    var period := |text| + 3;
    ModuloShift(n, k, period);
    ModuloShift(0, k, period);
    ScrollShifts(text);
  }

  /** Quotient and remainder by a positive divisor are unique. */
  lemma DivModUnique(a: int, d: int, q: int, r: int)
    requires 0 < d && 0 <= r < d && a == q * d + r
    ensures a / d == q && a % d == r
  {
    var q', r' := a / d, a % d;
    assert a == q' * d + r';
    MultipleAtLeast(q - q', d);
    MultipleAtLeast(q' - q, d);
  }

  /** A positive multiple of a positive number is at least that number. */
  lemma MultipleAtLeast(x: int, d: int)
    requires 0 < d
    ensures 1 <= x ==> d <= x * d
  {
  }

  /** Adding whole periods does not change a residue. */
  lemma {:induction false} ModuloShift(n: nat, k: nat, period: nat)
    requires 0 < period
    ensures (n + k * period) % period == n % period
  {
    var q, r := n / period, n % period;
    assert n == q * period + r;
    assert n + k * period == (q + k) * period + r;
    DivModUnique(n + k * period, period, q + k, r);
  }

  /** Within a cycle, each write is the previous one moved by one column; the write
      after the last of a cycle is the padded text again. */
  lemma ScrollStep(text: string, n: nat)
    ensures n % (|text| + 3) < |text| + 2 ==> NthWrite(text, n + 1) == NthWrite(text, n)[1..]
    ensures n % (|text| + 3) == |text| + 2 ==> NthWrite(text, n + 1) == Padded(text)
  {
    var period := |text| + 3;
    var frames := ScrollFrames(text);
    var q, r := n / period, n % period;
    assert n == q * period + r;
    ScrollShifts(text);
    if r < period - 1 {
      DivModUnique(n + 1, period, q, r + 1);
      assert NthWrite(text, n + 1) == frames[r + 1] == frames[r][1..];
    } else {
      DivModUnique(n + 1, period, q + 1, 0);
      assert NthWrite(text, n + 1) == frames[0];
    }
  }
}
